=== FILE: README.md ===
# Search block editor and toggle-group option, modelled in Dafny

This project models two pieces of the block editor's user interface as pure functions.

**The mobile Search block editor** (`packages/block-library/src/search/edit.native.js`). React Native is stripped away. What is left maps the block's attributes, its `isSelected` flag and its two local focus flags to three things:

- the class names it puts on the block (`getBlockClassNames`);
- which parts it renders: the label, the controls, and a search bar, a lone button or a lone text field;
- the attribute patches its handlers send to `setAttributes`:
  - `onChange`: a live width edit;
  - `onChangeWidth`: a completed width edit;
  - `onChangeUnit`: a unit switch;
  - the two toolbar toggles;
  - the position dropdown;
  - the three text edits.

**One option of a toggle group** (`packages/components/src/toggle-group-control/toggle-group-control-option/component.tsx`). The model covers:

- how the group's context props and the option's own props are merged, and the defaults they get;
- whether the option is active;
- which label it shows;
- whether it is wrapped in a tooltip;
- what its focus handler does to the group's value.

Files:

- `wrappers.dfy`: `Option` and `Result`.
- `search_attributes.dfy` (module `SearchAttributes`): the attributes, the `buttonPosition` values, and patches. It also holds `Apply`, a shallow merge of a patch into the attributes. Applying a patch is the host store's job, so `Apply` is an assumption (keys in the patch overwrite, other keys are untouched). It is used only so that lemmas can say what an emitted patch does. It is proved idempotent.
- `search_edit.dfy` (module `SearchEdit`): the handlers, the class names, the controls and the layout.
- `toggle_group_option.dfy` (module `ToggleGroupOption`): JavaScript values and props objects, the merge, rendering, and the focus handler. It also covers a group of options that share one state.

How JavaScript is modelled:

- The search block's `showLabel` and `buttonUseIcon` are only read for truthiness or negated, so an absent flag is `false`.
- `width` and `widthUnit` keep their absence (`Option`). The destructuring defaults `100` and `'%'` apply only to an unset attribute, so a stored empty unit stays empty.
- `buttonPosition` is `ButtonInside | ButtonOutside | NoButton | ButtonOnly | Other(raw)`. `Other` also stands for an unset attribute: the editor's strict comparisons treat both the same way. The attribute and patches hold a `StoredPosition`, a subset of `ButtonPosition` in which no `Other` spells one of the four names, so an "unknown position" is always a string the editor's comparisons all reject.
- `isPercentageUnit`, `MIN_WIDTH`, `PC_WIDTH_DEFAULT`, `PX_WIDTH_DEFAULT` and `CSS_UNITS` come from the block's `utils.js`, which is not part of this model. They are fields of a `Utils` parameter: an uninterpreted predicate, three constants and a list of unit names.
- In the toggle option, props are maps from property name to `JsValue`:
  - A function value carries an id, which stands for its identity, whether it calls `preventDefault`, and whether it throws. It does nothing else.
  - The group's radio state carries an id and its current value.
  - Reading `state.value` from a missing state throws, and so does calling a non-function `onFocus` or `setValue`. These cases are modelled as `Failure(TypeError)`. A caller's `onFocus` that throws gives `Failure(Thrown)`.

The live-width filter is easy to misread as "hold back live edits while the unit is not a percentage". The code (`edit.native.js:100-105`) does the opposite, and the model follows the code:

- it drops the live change when the unit is a percentage unit or empty;
- it writes the live change straight through otherwise, e.g. for `px` (`LiveChangeWrittenForPixels`).

Three things the code does are worth knowing:

- An unknown `buttonPosition` renders neither field nor button. Yet it still gets a text-button or icon-button class (`UnknownPositionStyleClassWithoutButton`).
- The mount effect (`edit.native.js:77-98`) reads `textInput.current.isFocused()` before it tests `isSelected`. The ref is attached only by the text field (`edit.native.js:218`), which is rendered only for 'button-inside', 'button-outside' and 'no-button' (`edit.native.js:312`, `318`). So for 'button-only' and for an unknown position the effect reads a member of a null ref on mount, whether or not the block is selected. The effect itself is not modelled.
- The minimum of the width control and the width reset on a unit switch test the literal `'%'`. The maximum of the width control and the live-edit filter ask `isPercentageUnit`.

## Model

| member | source | states |
|---|---|---|
| SearchAttributes.ParsePosition | packages/block-library/src/search/edit.native.js:124-135 | classifying a stored position string is exact: the result is a stored position (never an `Other` spelling a known name), prints back to the same string, and is a known position iff the string is one of the four names |
| SearchAttributes.ParsePositionName | packages/block-library/src/search/edit.native.js:124-135 | printing a stored position and classifying the string gives the same position back |
| SearchEdit.ResolvedDefaults | packages/block-library/src/search/edit.native.js:62-71 | an unset width reads as 100 and an unset unit as '%'; a stored value, even the empty unit, is kept |
| SearchEdit.LiveWidthChange | packages/block-library/src/search/edit.native.js:100-105 | a live width edit emits nothing iff the unit is a percentage unit or empty; otherwise it emits exactly the completed-edit patch, naming only width and unit |
| SearchEdit.CommitWidth | packages/block-library/src/search/edit.native.js:107-112 | a completed edit names exactly width and unit, writes the new width, and writes the unit currently shown |
| SearchEdit.ChangeUnit | packages/block-library/src/search/edit.native.js:114-119 | a unit switch names exactly width and unit, stores the new unit, and resets the width to the percentage default iff the new unit is the literal '%', else to the pixel default |
| SearchEdit.CommitWidthKeepsUnit | packages/block-library/src/search/edit.native.js:107-112 | after a completed edit the block has the new width and the same unit, and every other attribute is unchanged |
| SearchEdit.LiveChangeNeverChangesUnit | packages/block-library/src/search/edit.native.js:100-112 | a live edit that is emitted sets the width and never changes the unit the block shows |
| SearchEdit.ChangeUnitResets | packages/block-library/src/search/edit.native.js:100-119 | after a unit switch the block shows the new unit and its default width, and nothing else changed; later live edits are dropped iff the new unit is a percentage unit or empty |
| SearchEdit.LiveChangeWrittenForPixels | packages/block-library/src/search/edit.native.js:100-105 | with a 'px' unit that is not a percentage unit, a live edit is written through at once rather than held back |
| SearchEdit.EmptyUnitDropsLiveChanges | packages/block-library/src/search/edit.native.js:69-105 | a stored empty unit is not defaulted and drops every live edit, whatever `isPercentageUnit` says |
| SearchEdit.ToggleLabel | packages/block-library/src/search/edit.native.js:156-160 | the label toggle names only `showLabel` and flips it |
| SearchEdit.ToggleIcon | packages/block-library/src/search/edit.native.js:177-181 | the icon toggle names only `buttonUseIcon` and flips it |
| SearchEdit.SelectPosition | packages/block-library/src/search/edit.native.js:166-170 | the position dropdown names only `buttonPosition`, writes a canonical position, and the stored position spells the chosen string |
| SearchEdit.EditLabel | packages/block-library/src/search/edit.native.js:297 | editing the label names only the label and stores the new text |
| SearchEdit.EditPlaceholder | packages/block-library/src/search/edit.native.js:228-229 | editing the text field names only the placeholder and stores the new text |
| SearchEdit.EditButtonText | packages/block-library/src/search/edit.native.js:256-258 | editing the button text names only the button text and stores the new text |
| SearchEdit.TogglesAreInvolutions | packages/block-library/src/search/edit.native.js:156-183 | pressing either toolbar toggle twice restores the attributes exactly |
| SearchEdit.NamesDistinct | packages/block-library/src/search/edit.native.js:124-141 | the six block classes have pairwise different names |
| SearchEdit.PositionClass | packages/block-library/src/search/edit.native.js:124-135 | each known position maps to a position class whose name is `wp-block-search__` followed by the position's stored string |
| SearchEdit.SearchClasses | packages/block-library/src/search/edit.native.js:121-143 | a known position gives exactly one position class, its own; an unknown one gives none; the text-button class is present iff there is a button position and no icon; the icon-button class is present iff there is a button position and an icon |
| SearchEdit.BlockClassNames | packages/block-library/src/search/edit.native.js:121-147 | the block's class list is the `className` prop when it is truthy, followed by the names of the derived classes in order |
| SearchEdit.ClassesDetermineSettings | packages/block-library/src/search/edit.native.js:121-143 | the derived classes give back a known position (none for an unknown one), and give back `buttonUseIcon` unless the position is 'no-button' |
| SearchEdit.RenderControls | packages/block-library/src/search/edit.native.js:149-204 | the label toggle shows `showLabel`; the icon toggle is offered iff the position is not 'no-button' and shows `buttonUseIcon`; the position dropdown shows the stored `buttonPosition`; the width minimum is 1 for '%' and `MIN_WIDTH` otherwise; the maximum is 100 iff the unit is a percentage unit; the control offers the `CSS_UNITS` list and shows the resolved unit and width |
| SearchEdit.WidthControlShowsEdits | packages/block-library/src/search/edit.native.js:107-199 | after a completed edit the width control shows the new width with unchanged unit and bounds; after a unit switch it shows the new unit and its default width, has a maximum iff the unit is a percentage unit, and a minimum of 1 iff the unit is '%' (or `MIN_WIDTH` is 1) |
| SearchEdit.ToolbarReflectsToggles | packages/block-library/src/search/edit.native.js:153-183 | each toolbar toggle flips the state its own button shows and leaves the other alone; after choosing a position the dropdown shows it; choosing 'no-button' hides the icon toggle and any other position offers it |
| SearchEdit.RenderTextField | packages/block-library/src/search/edit.native.js:210-234 | the field has the border unless the position is 'button-inside', and shows the placeholder hint iff the placeholder is empty or unset |
| SearchEdit.RenderButton | packages/block-library/src/search/edit.native.js:236-273 | the button is an icon button iff `buttonUseIcon`; a rich-text button shows the button text and the local selection flag, and holds back focus on mount iff the block is not selected |
| SearchEdit.Body | packages/block-library/src/search/edit.native.js:275-318 | at most one body part; a text field is rendered iff the position is inside, outside or 'no-button'; a button iff inside, outside or 'button-only'; nothing for an unknown position; the border is on the search bar iff 'button-inside' and on the field otherwise |
| SearchEdit.Render | packages/block-library/src/search/edit.native.js:280-320 | the controls appear iff the block is selected, the label iff `showLabel` (with the label text, its local selection flag, and focus on mount held back iff the block is not selected), and the root carries the block class names |
| SearchEdit.ClassesMatchLayout | packages/block-library/src/search/edit.native.js:136-273 | for a known position the icon-button class is present iff an icon button is rendered, and the text-button class iff a rich-text button is rendered |
| SearchEdit.UnknownPositionStyleClassWithoutButton | packages/block-library/src/search/edit.native.js:136-318 | a stored position that is none of the four names renders no button and no field, yet a button-style class is still emitted |
| SearchEdit.ButtonInsideTextExample | packages/block-library/src/search/edit.native.js:309-315 | every 'button-inside' block without icon renders one search bar holding a rich-text button, and no lone button |
| SearchEdit.FocusButtonText | packages/block-library/src/search/edit.native.js:263-265 | focusing the button text sets its local flag and leaves the label's alone |
| SearchEdit.BlurButtonText | packages/block-library/src/search/edit.native.js:266-268 | blurring the button text clears its local flag and leaves the label's alone |
| SearchEdit.FocusLabelText | packages/block-library/src/search/edit.native.js:300-302 | focusing the label sets its local flag and leaves the button's alone |
| SearchEdit.BlurLabelText | packages/block-library/src/search/edit.native.js:303-305 | blurring the label clears its local flag and leaves the button's alone |
| SearchEdit.ButtonFocusRoundTrip | packages/block-library/src/search/edit.native.js:261-268 | after a focus the rendered rich-text button is selected, and after the blur that follows it is not |
| ToggleGroupOption.Merge | packages/components/src/toggle-group-control/toggle-group-control-option/component.tsx:63-66 | the merged props have the keys of both; an own key wins even when it is undefined; otherwise the context's value is kept |
| ToggleGroupOption.RadioProps | packages/components/src/toggle-group-control/toggle-group-control-option/component.tsx:55-66 | `radioProps` is the merged props minus the six destructured names, with their values unchanged |
| ToggleGroupOption.StateValue | packages/components/src/toggle-group-control/toggle-group-control-option/component.tsx:68 | reading the group value throws iff the state is undefined or null, and yields the radio state's current value |
| ToggleGroupOption.IsActive | packages/components/src/toggle-group-control/toggle-group-control-option/component.tsx:68 | the option is active iff the group's current value strictly equals its `value`; with a state that is not a radio state it is active iff its value is undefined |
| ToggleGroupOption.OptionLabel | packages/components/src/toggle-group-control/toggle-group-control-option/component.tsx:76-78 | the shown label is the `aria-label` prop when it is truthy and `label` otherwise |
| ToggleGroupOption.OwnAriaLabelWins | packages/components/src/toggle-group-control/toggle-group-control-option/component.tsx:63-78 | an own truthy `aria-label` is the shown label whatever the group gives; without an own one the group's truthy `aria-label` is shown; with no truthy `aria-label` the merged `label` is shown |
| ToggleGroupOption.WithToolTip | packages/components/src/toggle-group-control/toggle-group-control-option/component.tsx:30-39 | a tooltip with the text is added iff `showTooltip` and the text are both truthy; the children are passed through unchanged either way |
| ToggleGroupOption.RenderMerged | packages/components/src/toggle-group-control/toggle-group-control-option/component.tsx:55-104 | rendering fails iff the state is missing; `data-active` and the active class both follow `isActive`; the block label class iff `isBlock` is truthy; tooltip iff `showTooltip` and the label are truthy; the button always has the base class, has the `className` class iff `className` is truthy, and the active class iff active; the tooltip text is the option label; the radio gets the option label, the value and the label text; of `radioProps` it keeps only the keys it does not set itself (`as`, `onFocus`, `aria-label`, `className`, `data-value`, `ref`, `value`, children), so it receives the focus wrapper and the option label instead of the caller's `onFocus` and raw `aria-label` |
| ToggleGroupOption.Render | packages/components/src/toggle-group-control/toggle-group-control-option/component.tsx:45-66 | the option is the merged render of the group's context and its own props; it fails iff the option's own `state` is nullish, or it sets no `state` and the group's is nullish (an own `state: undefined` hides the group's state); when the group supplies a radio state and the option sets none, it is active iff the group's current value equals the option's own `value`, or the group's `value` if it sets none |
| ToggleGroupOption.OwnPropsWin | packages/components/src/toggle-group-control/toggle-group-control-option/component.tsx:55-70 | an own prop overrides the context's and a missing one falls back to it; `isBlock` and `showTooltip` set nowhere mean no block class and no tooltip |
| ToggleGroupOption.NullIsBlockUnblocked | packages/components/src/toggle-group-control/toggle-group-control-option/component.tsx:57-70 | a null `isBlock` escapes the default but still leaves the label unblocked |
| ToggleGroupOption.CallFocusHandler | packages/components/src/toggle-group-control/toggle-group-control-option/component.tsx:87 | a nullish `onFocus` is skipped; a function may mark the event prevented but never unmarks it, or throws its own error; anything else throws a TypeError |
| ToggleGroupOption.SetValue | packages/components/src/toggle-group-control/toggle-group-control-option/component.tsx:89 | setting the value succeeds iff the state is a radio state, and the group state the call leads to is that state holding the new value |
| ToggleGroupOption.OnFocus | packages/components/src/toggle-group-control/toggle-group-control-option/component.tsx:86-90 | the caller's handler runs first; if the event is then prevented the group state is unchanged, otherwise it holds this option's value; it throws iff the handler is not callable or throws itself (and then with the handler's error), or if the event is not prevented and the state is not a radio state |
| ToggleGroupOption.FocusSelects | packages/components/src/toggle-group-control/toggle-group-control-option/component.tsx:68-90 | after a focus that is not prevented, re-rendering with the new group state shows the focused option as active |
| ToggleGroupOption.PreventedFocusChangesNothing | packages/components/src/toggle-group-control/toggle-group-control-option/component.tsx:86-90 | after a prevented focus the group state and the rendered option are exactly as before |
| ToggleGroupOption.ThrowingHandlerSkipsSetValue | packages/components/src/toggle-group-control/toggle-group-control-option/component.tsx:86-89 | a caller's `onFocus` that throws makes the focus handler throw that error, so `setValue` is never reached |
| ToggleGroupOption.AlreadyPreventedKeepsState | packages/components/src/toggle-group-control/toggle-group-control-option/component.tsx:88 | an event that arrives already prevented never changes the group state |
| ToggleGroupOption.OneActiveOption | packages/components/src/toggle-group-control/toggle-group-control-option/component.tsx:68 | among pairwise distinct option values, exactly one equals the group value if it is among them, and none otherwise |
| ToggleGroupOption.RenderedActiveCount | packages/components/src/toggle-group-control/toggle-group-control-option/component.tsx:63-81 | when every option takes the group state from the context, the number of options rendered active is the number whose value equals the group value |
| ToggleGroupOption.GroupHasOneActiveOption | packages/components/src/toggle-group-control/toggle-group-control-option/component.tsx:63-81 | in a group with distinct option values, exactly one option is rendered active when the group value is one of them, and none otherwise |

## Left out

- The mount-focus effect and its Android timer (`edit.native.js:77-98`) are timing and platform I/O. The model assumes focus is requested only when the block is selected and its input is not already focused.
- `parseFloat(width)` (`edit.native.js:199`) is floating-point parsing. Widths are integers here, and the control shows the resolved width.
- The contents of `isPercentageUnit`, `CSS_UNITS` and the width constants belong to the block's `utils.js`, which is not part of this model. They are fields of the `Utils` parameter, so no property depends on which units are offered.
- Styles, icons, i18n strings, `useBlockProps`, and the RichText, TextInput, Radio and Tooltip primitives are library internals that are not visible. Only the decisions taken about them are kept.
- `useInstanceId`, `useContextSystem` and `useCx` are library internals. The option's own props are taken as given, and the generated `id` is just another radio prop.
- Applying a patch in the host store is not in this code. `Apply` models it as a shallow merge, and that is an assumption.
- `null` values for the search block's attributes are not modelled, because the attributes are typed.
- NaN and non-integer numbers are not modelled as toggle-option values.
- SearchEdit.BlockClassNames: returns the class tokens as a list instead of the space-joined string that `classnames` builds. A `className` prop that itself holds several space-separated classes stays one token.
- ToggleGroupOption.SetValue: `state.setValue` belongs to the radio-group library and its result is discarded. The model assumes that it replaces the group's value, that the state keeps its identity, and that the re-rendered option sees the new value. `FocusSelects` rests on this assumption.
- ToggleGroupOption.CallFocusHandler: a caller's `onFocus` is reduced to whether it calls `preventDefault` and whether it throws; any other side effect it has, such as changing the group state itself, is not modelled.
- ToggleGroupOption.IsActive: strict equality of two functions or two state objects is modelled as equality of their ids and contents. This matches reference equality only if ids are unique per object.
- A block schema registry, containment checks and patch-key validation belong to the host editor. None of them is in this code, so none is modelled.
- The end-to-end admin helpers, the list-item block settings and the gallery view store are not part of this model. They are a façade over a browser-automation library, static data, and a store whose only callback logs to the console.

=== FILE: search_attributes.dfy ===
/**
 The persisted attributes of the mobile Search block and the partial patches
 its editor hands to `setAttributes`.

 The editor never applies a patch itself: the host's attribute store does.
 `Apply` models the store as a shallow merge (keys in the patch overwrite,
 the others are untouched), which is an assumption about the host, so that
 lemmas can say what an emitted patch does to the attributes it is applied to.
 */
module SearchAttributes {
  import opened Wrappers

  /** The `buttonPosition` attribute. The editor compares the stored string
      against four literals; `Other(raw)` is any other string, and also stands
      for an attribute that is not set, which the editor treats the same way. */
  datatype ButtonPosition = ButtonInside | ButtonOutside | NoButton | ButtonOnly | Other(raw: string) {

    predicate Known() {
      !Other?
    }

    /** No `Other` value spells one of the four known names. */
    predicate Canonical() {
      Other? ==> raw !in KnownPositionNames
    }
  }

  const KnownPositionNames: set<string> := {"button-inside", "button-outside", "no-button", "button-only"}

  /** A position as the attribute can hold it: a string that spells one of
      the four names is always the named position, never `Other`. */
  type StoredPosition = p: ButtonPosition | p.Canonical() witness ButtonInside

  /** The string stored for a position. */
  function PositionName(p: ButtonPosition): (s: string)
    ensures p.Canonical() ==> (p.Known() <==> s in KnownPositionNames)
  {
    match p
    case ButtonInside => "button-inside"
    case ButtonOutside => "button-outside"
    case NoButton => "no-button"
    case ButtonOnly => "button-only"
    case Other(raw) => raw
  }

  /** Classifies a stored string the way the editor's strict comparisons do. */
  function ParsePosition(s: string): (p: StoredPosition)
    ensures PositionName(p) == s
    ensures p.Known() <==> s in KnownPositionNames
  {
    if s == "button-inside" then ButtonInside
    else if s == "button-outside" then ButtonOutside
    else if s == "no-button" then NoButton
    else if s == "button-only" then ButtonOnly
    else Other(s)
  }

  /** Printing a stored position and classifying the string gives it back. */
  lemma ParsePositionName(p: StoredPosition)
    ensures ParsePosition(PositionName(p)) == p
  {
  }

  /** The block's attributes. `showLabel` and `buttonUseIcon` are only ever
      read for their truthiness or negated, so an absent flag is `false`.
      `width` and `widthUnit` keep their absence, because the editor gives
      them defaults only when they are undefined. */
  datatype Attributes = Attributes(
    labelText: Option<string>,
    showLabel: bool,
    buttonPosition: StoredPosition,
    buttonUseIcon: bool,
    placeholder: Option<string>,
    buttonText: Option<string>,
    width: Option<int>,
    widthUnit: Option<string>)

  /** JavaScript truthiness of an optional string: set and non-empty. */
  predicate Truthy(s: Option<string>) {
    s.Some? && s.value != ""
  }

  /** The attribute names a patch can carry. */
  datatype Key = LabelKey | ShowLabelKey | ButtonPositionKey | ButtonUseIconKey
               | PlaceholderKey | ButtonTextKey | WidthKey | WidthUnitKey

  const AllKeys: set<Key> := {LabelKey, ShowLabelKey, ButtonPositionKey, ButtonUseIconKey,
                              PlaceholderKey, ButtonTextKey, WidthKey, WidthUnitKey}

  /** The value an attribute holds, whatever its type; `None` inside is "not set". */
  datatype Value = Text(text: Option<string>) | Flag(flag: bool) | Position(position: ButtonPosition) | Number(number: Option<int>)

  /** A partial attribute object: `Some` for every key the object literal names. */
  datatype Patch = Patch(
    labelText: Option<string>,
    showLabel: Option<bool>,
    buttonPosition: Option<StoredPosition>,
    buttonUseIcon: Option<bool>,
    placeholder: Option<string>,
    buttonText: Option<string>,
    width: Option<int>,
    widthUnit: Option<string>)

  const EmptyPatch := Patch(None, None, None, None, None, None, None, None)

  /** Reads one attribute. */
  function Get(a: Attributes, k: Key): Value {
    match k
    case LabelKey => Text(a.labelText)
    case ShowLabelKey => Flag(a.showLabel)
    case ButtonPositionKey => Position(a.buttonPosition)
    case ButtonUseIconKey => Flag(a.buttonUseIcon)
    case PlaceholderKey => Text(a.placeholder)
    case ButtonTextKey => Text(a.buttonText)
    case WidthKey => Number(a.width)
    case WidthUnitKey => Text(a.widthUnit)
  }

  /** The value a patch writes under `k`, if it names `k`. */
  function PatchGet(p: Patch, k: Key): Option<Value> {
    match k
    case LabelKey => if p.labelText.Some? then Some(Text(p.labelText)) else None
    case ShowLabelKey => if p.showLabel.Some? then Some(Flag(p.showLabel.value)) else None
    case ButtonPositionKey => if p.buttonPosition.Some? then Some(Position(p.buttonPosition.value)) else None
    case ButtonUseIconKey => if p.buttonUseIcon.Some? then Some(Flag(p.buttonUseIcon.value)) else None
    case PlaceholderKey => if p.placeholder.Some? then Some(Text(p.placeholder)) else None
    case ButtonTextKey => if p.buttonText.Some? then Some(Text(p.buttonText)) else None
    case WidthKey => if p.width.Some? then Some(Number(p.width)) else None
    case WidthUnitKey => if p.widthUnit.Some? then Some(Text(p.widthUnit)) else None
  }

  /** The keys a patch names. */
  function Keys(p: Patch): set<Key> {
    set k | k in AllKeys && PatchGet(p, k).Some?
  }

  /** The host store's shallow merge of a patch into the attributes. */
  function Apply(a: Attributes, p: Patch): (r: Attributes)
    ensures forall k :: k in Keys(p) ==> Some(Get(r, k)) == PatchGet(p, k)
    ensures forall k :: k !in Keys(p) ==> Get(r, k) == Get(a, k)
  {
    Attributes(
      if p.labelText.Some? then p.labelText else a.labelText,
      p.showLabel.GetOr(a.showLabel),
      p.buttonPosition.GetOr(a.buttonPosition),
      p.buttonUseIcon.GetOr(a.buttonUseIcon),
      if p.placeholder.Some? then p.placeholder else a.placeholder,
      if p.buttonText.Some? then p.buttonText else a.buttonText,
      if p.width.Some? then p.width else a.width,
      if p.widthUnit.Some? then p.widthUnit else a.widthUnit)
  }

  /** Attributes are determined by what `Get` reads from them. */
  lemma GetDetermines(a: Attributes, b: Attributes)
    requires forall k :: k in AllKeys ==> Get(a, k) == Get(b, k)
    ensures a == b
  {
  }

  /** Applying the same patch a second time changes nothing. */
  lemma ApplyIdempotent(a: Attributes, p: Patch)
    ensures Apply(Apply(a, p), p) == Apply(a, p)
  {
  }

  /** A patch that names no key leaves the attributes as they are. */
  lemma ApplyEmpty(a: Attributes)
    ensures Keys(EmptyPatch) == {}
    ensures Apply(a, EmptyPatch) == a
  {
  }
}

=== FILE: search_edit.dfy ===
/**
 The mobile Search block editor stripped of React Native: the patches its
 handlers emit, the class names it gives the block, and which parts of the
 block it renders, all as pure functions of the attributes, the selection
 flag and the editor's two local focus flags.
 */
module SearchEdit {
  import opened Wrappers
  import opened SearchAttributes

  /** What the editor imports from its `utils.js`. Their definitions are not
      part of this model, so the predicate, the constants and the list of
      units offered by the width control are parameters. */
  datatype Utils = Utils(isPercentageUnit: string -> bool, minWidth: int, pcWidthDefault: int, pxWidthDefault: int,
                         cssUnits: seq<string>)

  const DefaultWidth: int := 100
  const DefaultWidthUnit: string := "%"

  /** The width the editor works with: the destructuring default when the attribute is unset. */
  function Width(a: Attributes): int {
    a.width.GetOr(DefaultWidth)
  }

  /** The unit the editor works with: the destructuring default when the attribute is unset. */
  function WidthUnit(a: Attributes): string {
    a.widthUnit.GetOr(DefaultWidthUnit)
  }

  /** Defaults fill only what is unset; a stored value, even the empty unit, is kept. */
  lemma ResolvedDefaults(a: Attributes)
    ensures a.width.None? ==> Width(a) == 100
    ensures a.widthUnit.None? ==> WidthUnit(a) == "%"
    ensures a.width.Some? ==> Width(a) == a.width.value
    ensures a.widthUnit.Some? ==> WidthUnit(a) == a.widthUnit.value
  {
  }

  // ---------------------------------------------------------------------------
  // Width handlers
  // ---------------------------------------------------------------------------

  /** `onChangeWidth`: a completed width edit. It writes the new width and
      re-states the current unit, so a default unit becomes a stored one. */
  function CommitWidth(a: Attributes, next: int): (r: Patch)
    ensures Keys(r) == {WidthKey, WidthUnitKey}
    ensures r.width == Some(next)
    ensures r.widthUnit == Some(WidthUnit(a))
  {
    var r := EmptyPatch.(width := Some(next), widthUnit := Some(WidthUnit(a)));
    assert PatchGet(r, WidthKey).Some? && PatchGet(r, WidthUnitKey).Some?;
    r
  }

  /** `onChange`: a live width edit, dropped for a percentage or an empty unit
      and otherwise the same patch as a completed edit. */
  function LiveWidthChange(u: Utils, a: Attributes, next: int): (r: Option<Patch>)
    ensures r.None? <==> u.isPercentageUnit(WidthUnit(a)) || WidthUnit(a) == ""
    ensures r.Some? ==> r.value == CommitWidth(a, next)
    ensures r.Some? ==> Keys(r.value) == {WidthKey, WidthUnitKey}
  {
    var unit := WidthUnit(a);
    if u.isPercentageUnit(unit) || unit == "" then None else Some(CommitWidth(a, next))
  }

  /** `onChangeUnit`: switching unit stores the new unit and resets the width
      to the percentage default exactly when the new unit is the literal "%". */
  function ChangeUnit(u: Utils, next: string): (r: Patch)
    ensures Keys(r) == {WidthKey, WidthUnitKey}
    ensures r.widthUnit == Some(next)
    ensures next == "%" ==> r.width == Some(u.pcWidthDefault)
    ensures next != "%" ==> r.width == Some(u.pxWidthDefault)
  {
    var r := EmptyPatch.(width := Some(if "%" == next then u.pcWidthDefault else u.pxWidthDefault),
                         widthUnit := Some(next));
    assert PatchGet(r, WidthKey).Some? && PatchGet(r, WidthUnitKey).Some?;
    r
  }

  /** After a completed edit the block has the new width and still the unit it
      showed before; no other attribute moves. */
  lemma CommitWidthKeepsUnit(a: Attributes, next: int)
    ensures Width(Apply(a, CommitWidth(a, next))) == next
    ensures WidthUnit(Apply(a, CommitWidth(a, next))) == WidthUnit(a)
    ensures forall k :: k !in {WidthKey, WidthUnitKey} ==> Get(Apply(a, CommitWidth(a, next)), k) == Get(a, k)
  {
  }

  /** A live edit, when it is not dropped, has the same effect as committing it. */
  lemma LiveChangeNeverChangesUnit(u: Utils, a: Attributes, next: int)
    ensures LiveWidthChange(u, a, next).Some? ==>
              WidthUnit(Apply(a, LiveWidthChange(u, a, next).value)) == WidthUnit(a) &&
              Width(Apply(a, LiveWidthChange(u, a, next).value)) == next
  {
  }

  /** After a unit switch the block shows the new unit and its default width,
      and further live edits are dropped exactly when the new unit is a
      percentage unit or empty. */
  lemma ChangeUnitResets(u: Utils, a: Attributes, next: string, w: int)
    ensures WidthUnit(Apply(a, ChangeUnit(u, next))) == next
    ensures Width(Apply(a, ChangeUnit(u, next))) == if next == "%" then u.pcWidthDefault else u.pxWidthDefault
    ensures forall k :: k !in {WidthKey, WidthUnitKey} ==> Get(Apply(a, ChangeUnit(u, next)), k) == Get(a, k)
    ensures LiveWidthChange(u, Apply(a, ChangeUnit(u, next)), w).None? <==> u.isPercentageUnit(next) || next == ""
  {
  }

  /** With a pixel unit that the utilities do not call a percentage unit, a
      live edit is written through at once rather than held back until the
      edit completes. */
  lemma LiveChangeWrittenForPixels(u: Utils, a: Attributes, next: int)
    requires WidthUnit(a) == "px" && !u.isPercentageUnit("px")
    ensures LiveWidthChange(u, a, next) == Some(CommitWidth(a, next))
    ensures Width(Apply(a, LiveWidthChange(u, a, next).value)) == next
  {
  }

  /** An unset unit counts as "%", but an explicitly empty unit is not defaulted
      and drops every live edit whatever the utilities say. */
  lemma EmptyUnitDropsLiveChanges(u: Utils, a: Attributes, next: int)
    requires a.widthUnit == Some("")
    ensures LiveWidthChange(u, a, next).None?
  {
  }

  // ---------------------------------------------------------------------------
  // Toolbar and text handlers
  // ---------------------------------------------------------------------------

  /** The "Toggle search label" button. */
  function ToggleLabel(a: Attributes): (r: Patch)
    ensures Keys(r) == {ShowLabelKey}
    ensures Apply(a, r).showLabel == !a.showLabel
  {
    var r := EmptyPatch.(showLabel := Some(!a.showLabel));
    assert PatchGet(r, ShowLabelKey).Some?;
    r
  }

  /** The "Use button with icon" button. */
  function ToggleIcon(a: Attributes): (r: Patch)
    ensures Keys(r) == {ButtonUseIconKey}
    ensures Apply(a, r).buttonUseIcon == !a.buttonUseIcon
  {
    var r := EmptyPatch.(buttonUseIcon := Some(!a.buttonUseIcon));
    assert PatchGet(r, ButtonUseIconKey).Some?;
    r
  }

  /** The position dropdown stores the chosen string. */
  function SelectPosition(position: string): (r: Patch)
    ensures Keys(r) == {ButtonPositionKey}
    ensures forall a :: PositionName(Apply(a, r).buttonPosition) == position
  {
    var r := EmptyPatch.(buttonPosition := Some(ParsePosition(position)));
    assert PatchGet(r, ButtonPositionKey).Some?;
    r
  }

  /** Editing the label text. */
  function EditLabel(html: string): (r: Patch)
    ensures Keys(r) == {LabelKey}
    ensures forall a :: Apply(a, r).labelText == Some(html)
  {
    var r := EmptyPatch.(labelText := Some(html));
    assert PatchGet(r, LabelKey).Some?;
    r
  }

  /** Editing the text field, which stores its text as the placeholder. */
  function EditPlaceholder(text: string): (r: Patch)
    ensures Keys(r) == {PlaceholderKey}
    ensures forall a :: Apply(a, r).placeholder == Some(text)
  {
    var r := EmptyPatch.(placeholder := Some(text));
    assert PatchGet(r, PlaceholderKey).Some?;
    r
  }

  /** Editing the text of the rich-text button. */
  function EditButtonText(html: string): (r: Patch)
    ensures Keys(r) == {ButtonTextKey}
    ensures forall a :: Apply(a, r).buttonText == Some(html)
  {
    var r := EmptyPatch.(buttonText := Some(html));
    assert PatchGet(r, ButtonTextKey).Some?;
    r
  }

  /** Pressing a toggle twice puts the attributes back as they were. */
  lemma TogglesAreInvolutions(a: Attributes)
    ensures Apply(Apply(a, ToggleLabel(a)), ToggleLabel(Apply(a, ToggleLabel(a)))) == a
    ensures Apply(Apply(a, ToggleIcon(a)), ToggleIcon(Apply(a, ToggleIcon(a)))) == a
  {
  }

  // ---------------------------------------------------------------------------
  // Class names
  // ---------------------------------------------------------------------------

  /** The class names the editor can add to the block. */
  datatype SearchClass = ButtonInsideClass | ButtonOutsideClass | NoButtonClass | ButtonOnlyClass
                       | TextButtonClass | IconButtonClass {

    /** The CSS class itself. */
    function Name(): string {
      match this
      case ButtonInsideClass => "wp-block-search__button-inside"
      case ButtonOutsideClass => "wp-block-search__button-outside"
      case NoButtonClass => "wp-block-search__no-button"
      case ButtonOnlyClass => "wp-block-search__button-only"
      case TextButtonClass => "wp-block-search__text-button"
      case IconButtonClass => "wp-block-search__icon-button"
    }

    predicate IsPositionClass() {
      !TextButtonClass? && !IconButtonClass?
    }
  }

  /** Distinct classes have distinct names, so the list of names determines the list of classes. */
  lemma NamesDistinct(c: SearchClass, d: SearchClass)
    ensures c.Name() == d.Name() ==> c == d
  {
  }

  /** The class that names a known position. */
  function PositionClass(p: ButtonPosition): (c: SearchClass)
    requires p.Known()
    ensures c.IsPositionClass()
    ensures c.Name() == "wp-block-search__" + PositionName(p)
  {
    match p
    case ButtonInside => ButtonInsideClass
    case ButtonOutside => ButtonOutsideClass
    case NoButton => NoButtonClass
    case ButtonOnly => ButtonOnlyClass
  }

  /** The classes the editor derives from the attributes, in `classnames` order:
      one position class for a known position, none for an unknown one, and one
      of the two button-style classes unless there is no button. */
  function SearchClasses(a: Attributes): (r: seq<SearchClass>)
    ensures |r| == (if a.buttonPosition.Known() then 1 else 0) + (if a.buttonPosition != NoButton then 1 else 0)
    ensures a.buttonPosition.Known() ==> PositionClass(a.buttonPosition) in r
    ensures forall c :: c in r && c.IsPositionClass() ==> a.buttonPosition.Known() && c == PositionClass(a.buttonPosition)
    ensures TextButtonClass in r <==> a.buttonPosition != NoButton && !a.buttonUseIcon
    ensures IconButtonClass in r <==> a.buttonPosition != NoButton && a.buttonUseIcon
  {
    var pos := a.buttonPosition;
    (if pos == ButtonInside then [ButtonInsideClass] else [])
    + (if pos == ButtonOutside then [ButtonOutsideClass] else [])
    + (if pos == NoButton then [NoButtonClass] else [])
    + (if pos == ButtonOnly then [ButtonOnlyClass] else [])
    + (if !a.buttonUseIcon && pos != NoButton then [TextButtonClass] else [])
    + (if a.buttonUseIcon && pos != NoButton then [IconButtonClass] else [])
  }

  /** The names of a list of classes. */
  function Names(cs: seq<SearchClass>): (r: seq<string>)
    ensures |r| == |cs|
    ensures forall i :: 0 <= i < |cs| ==> r[i] == cs[i].Name()
  {
    if cs == [] then [] else [cs[0].Name()] + Names(cs[1..])
  }

  /** `getBlockClassNames`: the `className` prop, when it is truthy, followed by the derived class names. */
  function BlockClassNames(className: Option<string>, a: Attributes): (r: seq<string>)
    ensures |r| == |SearchClasses(a)| + (if Truthy(className) then 1 else 0)
    ensures Truthy(className) ==> r[0] == className.value
    ensures forall i :: 0 <= i < |SearchClasses(a)| ==> r[|r| - |SearchClasses(a)| + i] == SearchClasses(a)[i].Name()
  {
    (if Truthy(className) then [className.value] else []) + Names(SearchClasses(a))
  }

  /** Reads the position back from derived classes. */
  function PositionFromClasses(cs: seq<SearchClass>): Option<ButtonPosition> {
    if ButtonInsideClass in cs then Some(ButtonInside)
    else if ButtonOutsideClass in cs then Some(ButtonOutside)
    else if NoButtonClass in cs then Some(NoButton)
    else if ButtonOnlyClass in cs then Some(ButtonOnly)
    else None
  }

  /** Reads the button style back from derived classes. */
  function UseIconFromClasses(cs: seq<SearchClass>): Option<bool> {
    if IconButtonClass in cs then Some(true)
    else if TextButtonClass in cs then Some(false)
    else None
  }

  /** The derived classes determine a known position and, when there is a
      button, its style; an unknown position leaves no position class. */
  lemma ClassesDetermineSettings(a: Attributes)
    ensures a.buttonPosition.Known() ==> PositionFromClasses(SearchClasses(a)) == Some(a.buttonPosition)
    ensures !a.buttonPosition.Known() ==> PositionFromClasses(SearchClasses(a)) == None
    ensures a.buttonPosition != NoButton ==> UseIconFromClasses(SearchClasses(a)) == Some(a.buttonUseIcon)
    ensures a.buttonPosition == NoButton ==> UseIconFromClasses(SearchClasses(a)) == None
  {
  }

  // ---------------------------------------------------------------------------
  // Rendered layout
  // ---------------------------------------------------------------------------

  /** The search button: an icon button, or a rich-text button with its text. */
  datatype Button = IconButton | TextButton(text: Option<string>, isSelected: bool, noFocusOnMount: bool)

  /** The text input; `placeholderHint` is whether the hint text is shown. */
  datatype TextField = TextField(bordered: bool, value: Option<string>, placeholderHint: bool)

  /** The body of the block below the label. */
  datatype Part = SearchBar(bordered: bool, field: TextField, button: Button)
                | LoneButton(button: Button)
                | LoneField(field: TextField)

  datatype LabelView = LabelView(text: Option<string>, isSelected: bool, noFocusOnMount: bool)

  /** `iconToggle` is `Some(isActive)` when the icon toggle is offered. */
  datatype Toolbar = Toolbar(labelToggleActive: bool, selectedPosition: ButtonPosition, iconToggle: Option<bool>)

  datatype WidthControl = WidthControl(min: int, max: Option<int>, units: seq<string>, unit: string, value: int)

  datatype Controls = Controls(toolbar: Toolbar, width: WidthControl)

  /** The editor's own focus flags for the button text and the label text. */
  datatype LocalState = LocalState(buttonSelected: bool, labelSelected: bool)

  datatype View = View(classes: seq<string>, controls: Option<Controls>, heading: Option<LabelView>, parts: seq<Part>)

  /** The toolbar and the width control, shown while the block is selected. */
  function RenderControls(u: Utils, a: Attributes): (c: Controls)
    ensures c.toolbar.labelToggleActive == a.showLabel
    ensures c.toolbar.selectedPosition == a.buttonPosition
    ensures c.toolbar.iconToggle.Some? <==> a.buttonPosition != NoButton
    ensures c.toolbar.iconToggle.Some? ==> c.toolbar.iconToggle.value == a.buttonUseIcon
    ensures WidthUnit(a) == "%" ==> c.width.min == 1
    ensures WidthUnit(a) != "%" ==> c.width.min == u.minWidth
    ensures c.width.max.Some? <==> u.isPercentageUnit(WidthUnit(a))
    ensures c.width.max.Some? ==> c.width.max.value == 100
    ensures c.width.units == u.cssUnits
    ensures c.width.unit == WidthUnit(a) && c.width.value == Width(a)
  {
    var unit := WidthUnit(a);
    Controls(
      Toolbar(a.showLabel, a.buttonPosition, if NoButton != a.buttonPosition then Some(a.buttonUseIcon) else None),
      WidthControl(if unit == "%" then 1 else u.minWidth,
                   if u.isPercentageUnit(unit) then Some(100) else None,
                   u.cssUnits, unit, Width(a)))
  }

  /** `renderTextField`: the border sits on the field unless the button is inside the bar. */
  function RenderTextField(a: Attributes): (f: TextField)
    ensures f.bordered <==> a.buttonPosition != ButtonInside
    ensures f.value == a.placeholder
    ensures f.placeholderHint <==> !Truthy(a.placeholder)
  {
    TextField(a.buttonPosition != ButtonInside, a.placeholder, !Truthy(a.placeholder))
  }

  /** `renderButton`: an icon button when `buttonUseIcon`, a rich-text button otherwise. */
  function RenderButton(a: Attributes, isSelected: bool, local: LocalState): (b: Button)
    ensures b.IconButton? <==> a.buttonUseIcon
    ensures b.TextButton? ==> b.text == a.buttonText && b.isSelected == local.buttonSelected
    ensures b.TextButton? ==> b.noFocusOnMount == !isSelected
  {
    if a.buttonUseIcon then IconButton else TextButton(a.buttonText, local.buttonSelected, !isSelected)
  }

  /** Every button in a rendered body. */
  function ButtonsOf(parts: seq<Part>): (r: seq<Button>)
    ensures |r| <= |parts|
  {
    if parts == [] then []
    else match parts[0]
      case SearchBar(_, _, b) => [b] + ButtonsOf(parts[1..])
      case LoneButton(b) => [b] + ButtonsOf(parts[1..])
      case LoneField(_) => ButtonsOf(parts[1..])
  }

  /** Every text field in a rendered body. */
  function FieldsOf(parts: seq<Part>): (r: seq<TextField>)
    ensures |r| <= |parts|
  {
    if parts == [] then []
    else match parts[0]
      case SearchBar(_, f, _) => [f] + FieldsOf(parts[1..])
      case LoneButton(_) => FieldsOf(parts[1..])
      case LoneField(f) => [f] + FieldsOf(parts[1..])
  }

  /** Whether the border style is on a search bar of the body. */
  predicate BorderOnBar(parts: seq<Part>) {
    exists i :: 0 <= i < |parts| && parts[i].SearchBar? && parts[i].bordered
  }

  /** The width control shows what the width handlers store: a completed edit
      shows the new width in the same unit and bounds; a unit switch shows the
      new unit with its default width, a maximum iff it is a percentage unit,
      and the minimum 1 iff it is the literal "%". */
  lemma WidthControlShowsEdits(u: Utils, a: Attributes, w: int, next: string)
    ensures RenderControls(u, Apply(a, CommitWidth(a, w))).width ==
              RenderControls(u, a).width.(value := w)
    ensures RenderControls(u, Apply(a, ChangeUnit(u, next))).width.unit == next
    ensures RenderControls(u, Apply(a, ChangeUnit(u, next))).width.value ==
              if next == "%" then u.pcWidthDefault else u.pxWidthDefault
    ensures RenderControls(u, Apply(a, ChangeUnit(u, next))).width.max.Some? <==> u.isPercentageUnit(next)
    ensures RenderControls(u, Apply(a, ChangeUnit(u, next))).width.min == 1 <==> next == "%" || u.minWidth == 1
  {
  }

  /** The toolbar reflects its own toggles: each flips the state its button
      shows and leaves the other button as it was; choosing 'no-button' hides
      the icon toggle and any other choice offers it. */
  lemma ToolbarReflectsToggles(u: Utils, a: Attributes, position: string)
    ensures RenderControls(u, Apply(a, ToggleLabel(a))).toolbar ==
              RenderControls(u, a).toolbar.(labelToggleActive := !a.showLabel)
    ensures RenderControls(u, Apply(a, ToggleIcon(a))).toolbar.labelToggleActive == a.showLabel
    ensures RenderControls(u, Apply(a, ToggleIcon(a))).toolbar.iconToggle ==
              if a.buttonPosition == NoButton then None else Some(!a.buttonUseIcon)
    ensures RenderControls(u, Apply(a, SelectPosition(position))).toolbar.selectedPosition == ParsePosition(position)
    ensures RenderControls(u, Apply(a, SelectPosition(position))).toolbar.iconToggle.None? <==> position == "no-button"
  {
  }

  /** The body of the block below the label: the three conditional children of
      the returned tree (search bar, lone button, lone field). */
  function Body(a: Attributes, isSelected: bool, local: LocalState): (parts: seq<Part>)
    ensures |parts| <= 1
    ensures a.buttonPosition.Other? ==> parts == []
    ensures |FieldsOf(parts)| == (if a.buttonPosition == ButtonInside || a.buttonPosition == ButtonOutside || a.buttonPosition == NoButton then 1 else 0)
    ensures |ButtonsOf(parts)| == (if a.buttonPosition == ButtonInside || a.buttonPosition == ButtonOutside || a.buttonPosition == ButtonOnly then 1 else 0)
    ensures forall b :: b in ButtonsOf(parts) ==> b == RenderButton(a, isSelected, local)
    ensures forall b :: b in ButtonsOf(parts) ==> (b.IconButton? <==> a.buttonUseIcon)
    ensures forall f :: f in FieldsOf(parts) ==> f == RenderTextField(a)
    ensures forall f :: f in FieldsOf(parts) ==> (f.bordered <==> a.buttonPosition != ButtonInside)
    ensures BorderOnBar(parts) <==> a.buttonPosition == ButtonInside
  {
    var pos := a.buttonPosition;
    var button := RenderButton(a, isSelected, local);
    var field := RenderTextField(a);
    var bar := if pos == ButtonInside || pos == ButtonOutside then [SearchBar(pos == ButtonInside, field, button)] else [];
    var lone := if pos == ButtonOnly then [LoneButton(button)] else [];
    var alone := if pos == NoButton then [LoneField(field)] else [];
    var parts := bar + lone + alone;
    match pos
    case ButtonInside =>
      assert parts == [SearchBar(true, field, button)];
      assert ButtonsOf(parts) == [button] && FieldsOf(parts) == [field];
      assert parts[0].SearchBar? && parts[0].bordered;
      parts
    case ButtonOutside =>
      assert parts == [SearchBar(false, field, button)];
      assert ButtonsOf(parts) == [button] && FieldsOf(parts) == [field];
      parts
    case NoButton =>
      assert parts == [LoneField(field)];
      assert ButtonsOf(parts) == [] && FieldsOf(parts) == [field];
      parts
    case ButtonOnly =>
      assert parts == [LoneButton(button)];
      assert ButtonsOf(parts) == [button] && FieldsOf(parts) == [];
      parts
    case Other(_) =>
      assert parts == [];
      parts
  }

  /** The tree the editor returns: controls while selected, the label when
      shown, then the body. */
  function Render(u: Utils, className: Option<string>, a: Attributes, isSelected: bool, local: LocalState): (v: View)
    ensures v.classes == BlockClassNames(className, a)
    ensures v.controls.Some? <==> isSelected
    ensures v.controls.Some? ==> v.controls.value == RenderControls(u, a)
    ensures v.heading.Some? <==> a.showLabel
    ensures v.heading.Some? ==> v.heading.value.text == a.labelText && v.heading.value.isSelected == local.labelSelected
    ensures v.heading.Some? ==> v.heading.value.noFocusOnMount == !isSelected
    ensures v.parts == Body(a, isSelected, local)
  {
    View(
      BlockClassNames(className, a),
      if isSelected then Some(RenderControls(u, a)) else None,
      if a.showLabel then Some(LabelView(a.labelText, local.labelSelected, !isSelected)) else None,
      Body(a, isSelected, local))
  }

  /** For a known position the style class agrees with the button actually
      rendered: the icon class iff an icon button, the text class iff a
      rich-text button, neither when there is no button. */
  lemma ClassesMatchLayout(u: Utils, className: Option<string>, a: Attributes, isSelected: bool, local: LocalState)
    requires a.buttonPosition.Known()
    ensures IconButtonClass in SearchClasses(a) <==>
              exists b :: b in ButtonsOf(Render(u, className, a, isSelected, local).parts) && b.IconButton?
    ensures TextButtonClass in SearchClasses(a) <==>
              exists b :: b in ButtonsOf(Render(u, className, a, isSelected, local).parts) && b.TextButton?
  {
    var v := Render(u, className, a, isSelected, local);
    if a.buttonPosition != NoButton {
      assert ButtonsOf(v.parts)[0] in ButtonsOf(v.parts);
    }
  }

  /** For an unknown position (a stored string that is none of the four names)
      a button-style class is still emitted although no button (and no text
      field) is rendered. */
  lemma UnknownPositionStyleClassWithoutButton(u: Utils, className: Option<string>, a: Attributes, isSelected: bool, local: LocalState)
    requires !a.buttonPosition.Known()
    ensures ButtonsOf(Render(u, className, a, isSelected, local).parts) == []
    ensures FieldsOf(Render(u, className, a, isSelected, local).parts) == []
    ensures (if a.buttonUseIcon then IconButtonClass else TextButtonClass) in SearchClasses(a)
  {
  }

  /** A block with a label, the button inside and a text button renders a
      search bar holding the field and a rich-text button, never a lone button. */
  lemma ButtonInsideTextExample(u: Utils, a: Attributes, isSelected: bool, local: LocalState)
    requires a.buttonPosition == ButtonInside && !a.buttonUseIcon
    ensures |Render(u, None, a, isSelected, local).parts| == 1
    ensures Render(u, None, a, isSelected, local).parts[0].SearchBar?
    ensures Render(u, None, a, isSelected, local).parts[0].button.TextButton?
  {
  }

  // ---------------------------------------------------------------------------
  // Local focus flags
  // ---------------------------------------------------------------------------

  function FocusButtonText(l: LocalState): (r: LocalState)
    ensures r.buttonSelected && r.labelSelected == l.labelSelected
  {
    l.(buttonSelected := true)
  }

  function BlurButtonText(l: LocalState): (r: LocalState)
    ensures !r.buttonSelected && r.labelSelected == l.labelSelected
  {
    l.(buttonSelected := false)
  }

  function FocusLabelText(l: LocalState): (r: LocalState)
    ensures r.labelSelected && r.buttonSelected == l.buttonSelected
  {
    l.(labelSelected := true)
  }

  function BlurLabelText(l: LocalState): (r: LocalState)
    ensures !r.labelSelected && r.buttonSelected == l.buttonSelected
  {
    l.(labelSelected := false)
  }

  /** Focusing the rich-text button marks the rendered button selected, and
      blurring it clears the mark again. */
  lemma ButtonFocusRoundTrip(a: Attributes, isSelected: bool, l: LocalState)
    requires !a.buttonUseIcon
    requires a.buttonPosition == ButtonInside || a.buttonPosition == ButtonOutside || a.buttonPosition == ButtonOnly
    ensures ButtonsOf(Body(a, isSelected, FocusButtonText(l)))[0].isSelected
    ensures !ButtonsOf(Body(a, isSelected, BlurButtonText(FocusButtonText(l))))[0].isSelected
  {
  }
}

=== FILE: toggle_group_option.dfy ===
/**
 One option of a toggle group: how it merges the group's context props with
 its own, whether it is the active option, which label it shows, whether it
 is wrapped in a tooltip, and what its focus handler does to the group's value.

 Props are JavaScript objects, modelled as maps from property name to value.
 Styling, the radio primitive, the tooltip and the instance id come from
 libraries outside this model; only the decisions the component takes are kept.
 */
module ToggleGroupOption {
  import opened Wrappers

  /** The JavaScript values that reach an option. A function carries an id
      standing for its identity, whether calling it on a focus event calls
      `preventDefault`, and whether that call throws; a radio state is the
      group's state object with its id and current value. Strict equality
      `===` is equality of these values. */
  datatype JsValue = Undefined | Null | Bool(b: bool) | Num(n: int) | Str(s: string)
                   | Function(id: nat, preventsDefault: bool, throws: bool)
                   | RadioState(id: nat, current: JsValue)

  /** JavaScript truthiness. */
  predicate Truthy(v: JsValue) {
    match v
    case Undefined => false
    case Null => false
    case Bool(b) => b
    case Num(n) => n != 0
    case Str(s) => s != ""
    case Function(_, _, _) => true
    case RadioState(_, _) => true
  }

  predicate Nullish(v: JsValue) {
    v.Undefined? || v.Null?
  }

  /** A props object. */
  type Props = map<string, JsValue>

  /** The error a JavaScript call throws: `TypeError` for reading a member of
      `undefined` or `null` or calling something that is not a function, and
      `Thrown` for whatever a caller's own function throws. */
  datatype Error = TypeError | Thrown

  /** Reads a property; a missing one is `undefined`. */
  function Prop(m: Props, k: string): JsValue {
    if k in m then m[k] else Undefined
  }

  /** `{ ...context, ...own }`: every key the option sets itself wins over the
      group's context, even when it is set to `undefined`; the others come from
      the context. */
  function Merge(context: Props, own: Props): (r: Props)
    ensures r.Keys == context.Keys + own.Keys
    ensures forall k :: k in own ==> r[k] == own[k]
    ensures forall k :: k in context && k !in own ==> r[k] == context[k]
  {
    context + own
  }

  /** The names the component destructures; the rest are handed to the radio. */
  const NamedKeys: set<string> := {"className", "isBlock", "label", "value", "showTooltip", "state"}

  /** The props the option passes to the radio explicitly after spreading
      `radioProps`, so that they replace any key of the same name: `as`, the
      focus wrapper, `aria-label`, `className`, `data-value`, `ref`, `value`
      and the children. */
  const RadioOverrides: set<string> := {"as", "onFocus", "aria-label", "className", "data-value", "ref", "value", "children"}

  /** `...radioProps`: the merged props minus the destructured names. */
  function RadioProps(m: Props): (r: Props)
    ensures r.Keys == m.Keys - NamedKeys
    ensures forall k :: k in r ==> r[k] == m[k]
  {
    map k | k in m && k !in NamedKeys :: m[k]
  }

  /** A destructuring default: it replaces `undefined` only (not `null`). */
  function Defaulted(v: JsValue, default: JsValue): JsValue {
    if v.Undefined? then default else v
  }

  /** `state.value`, which throws when the state is missing. */
  function StateValue(state: JsValue): (r: Result<JsValue, Error>)
    ensures r.Failure? <==> Nullish(state)
    ensures state.RadioState? ==> r == Success(state.current)
  {
    match state
    case Undefined => Failure(TypeError)
    case Null => Failure(TypeError)
    case RadioState(_, current) => Success(current)
    case _ => Success(Undefined)
  }

  /** `optionLabel`: the `aria-label` prop when it is truthy, else `label`. */
  function OptionLabel(m: Props): (r: JsValue)
    ensures Truthy(Prop(m, "aria-label")) ==> r == Prop(m, "aria-label")
    ensures !Truthy(Prop(m, "aria-label")) ==> r == Prop(m, "label")
  {
    var radio := RadioProps(m);
    if Truthy(Prop(radio, "aria-label")) then Prop(radio, "aria-label") else Prop(m, "label")
  }

  /** Content that may be wrapped in a tooltip. */
  datatype Wrapped<T> = Tooltip(text: JsValue, child: T) | Plain(child: T)

  /** `WithToolTip`: wraps the children only when `showTooltip` and the text
      are both truthy; otherwise hands them on unchanged. */
  function WithToolTip<T>(showTooltip: JsValue, text: JsValue, children: T): (r: Wrapped<T>)
    ensures r.Tooltip? <==> Truthy(showTooltip) && Truthy(text)
    ensures r.Tooltip? ==> r.text == text
    ensures r.child == children
  {
    if Truthy(showTooltip) && Truthy(text) then Tooltip(text, children) else Plain(children)
  }

  /** The classes of the radio button. */
  datatype OptionClass = ButtonView | Custom(className: JsValue) | ButtonActive

  /** The radio button the option renders. */
  datatype RadioButton = RadioButton(
    ariaLabel: JsValue,
    classes: seq<OptionClass>,
    dataValue: JsValue,
    value: JsValue,
    content: JsValue,
    rest: Props)

  /** The rendered option: whether its label view has the block class, its
      `data-active` flag, and the possibly wrapped radio button. */
  datatype OptionView = OptionView(labelBlock: bool, dataActive: bool, body: Wrapped<RadioButton>)

  /** Whether the option is active: the group's current value is this option's `value`. */
  function IsActive(m: Props): (r: Result<bool, Error>)
    ensures r.Failure? <==> Nullish(Prop(m, "state"))
    ensures Prop(m, "state").RadioState? ==> r == Success(Prop(m, "state").current == Prop(m, "value"))
    ensures !Nullish(Prop(m, "state")) && !Prop(m, "state").RadioState? ==> r == Success(Prop(m, "value") == Undefined)
  {
    match StateValue(Prop(m, "state"))
    case Failure(e) => Failure(e)
    case Success(current) => Success(current == Prop(m, "value"))
  }

  /** The component for merged props. */
  function RenderMerged(m: Props): (r: Result<OptionView, Error>)
    ensures r.Failure? <==> Nullish(Prop(m, "state"))
    ensures r.Success? ==> r.value.dataActive == IsActive(m).value
    ensures r.Success? ==> (ButtonActive in r.value.body.child.classes <==> r.value.dataActive)
    ensures r.Success? ==> (r.value.labelBlock <==> Truthy(Prop(m, "isBlock")))
    ensures r.Success? ==> (r.value.body.Tooltip? <==> Truthy(Prop(m, "showTooltip")) && Truthy(OptionLabel(m)))
    ensures r.Success? ==> r.value.body.child.ariaLabel == OptionLabel(m)
    ensures r.Success? ==> r.value.body.child.dataValue == Prop(m, "value") == r.value.body.child.value
    ensures r.Success? ==> r.value.body.child.content == Prop(m, "label")
    ensures r.Success? ==> ButtonView in r.value.body.child.classes
    ensures r.Success? ==> r.value.body.child.rest.Keys == m.Keys - NamedKeys - RadioOverrides
    ensures r.Success? ==> forall k :: k in r.value.body.child.rest ==> r.value.body.child.rest[k] == m[k]
    ensures r.Success? ==> "onFocus" !in r.value.body.child.rest && "aria-label" !in r.value.body.child.rest
    ensures r.Success? ==> (Custom(Prop(m, "className")) in r.value.body.child.classes <==> Truthy(Prop(m, "className")))
    ensures r.Success? && r.value.body.Tooltip? ==> r.value.body.text == OptionLabel(m)
  {
    var className := Prop(m, "className");
    var isBlock := Defaulted(Prop(m, "isBlock"), Bool(false));
    var showTooltip := Defaulted(Prop(m, "showTooltip"), Bool(false));
    match IsActive(m)
    case Failure(e) => Failure(e)
    case Success(active) =>
      var classes := [ButtonView]
                     + (if Truthy(className) then [Custom(className)] else [])
                     + (if active then [ButtonActive] else []);
      var rest := map k | k in RadioProps(m) && k !in RadioOverrides :: RadioProps(m)[k];
      var radio := RadioButton(OptionLabel(m), classes, Prop(m, "value"), Prop(m, "value"), Prop(m, "label"), rest);
      Success(OptionView(Truthy(isBlock), active, WithToolTip(showTooltip, OptionLabel(m), radio)))
  }

  /** `ToggleGroupControlOption`: the group's context props merged with the option's own. */
  function Render(context: Props, own: Props): (r: Result<OptionView, Error>)
    ensures r == RenderMerged(Merge(context, own))
    ensures r.Failure? <==> Nullish(if "state" in own then own["state"] else Prop(context, "state"))
    ensures r.Success? && Prop(context, "state").RadioState? && "state" !in own ==>
              r.value.dataActive == (Prop(context, "state").current == (if "value" in own then own["value"] else Prop(context, "value")))
  {
    RenderMerged(Merge(context, own))
  }

  /** Every destructured prop the option sets itself takes precedence over the
      group's, and one it does not set comes from the group; `isBlock` and
      `showTooltip` set nowhere leave the label unblocked and the tooltip off. */
  lemma OwnPropsWin(context: Props, own: Props, k: string)
    ensures k in own ==> Prop(Merge(context, own), k) == own[k]
    ensures k !in own ==> Prop(Merge(context, own), k) == Prop(context, k)
    ensures "isBlock" !in context && "isBlock" !in own && Render(context, own).Success? ==>
              !Render(context, own).value.labelBlock
    ensures "showTooltip" !in context && "showTooltip" !in own && Render(context, own).Success? ==>
              Render(context, own).value.body.Plain?
  {
  }

  /** An explicit `null` for `isBlock` is not replaced by the default, yet it is
      falsy, so the label is unblocked all the same. */
  lemma NullIsBlockUnblocked(m: Props)
    requires Prop(m, "isBlock") == Null && RenderMerged(m).Success?
    ensures Defaulted(Prop(m, "isBlock"), Bool(false)) == Null
    ensures !RenderMerged(m).value.labelBlock
  {
  }

  /** The shown label of a merged option: a truthy `aria-label` of its own
      wins, a missing one falls back to the group's, and without a truthy
      `aria-label` anywhere the option's `label` is shown. */
  lemma OwnAriaLabelWins(context: Props, own: Props)
    ensures Truthy(Prop(own, "aria-label")) ==> OptionLabel(Merge(context, own)) == own["aria-label"]
    ensures "aria-label" !in own && Truthy(Prop(context, "aria-label")) ==>
              OptionLabel(Merge(context, own)) == context["aria-label"]
    ensures !Truthy(Prop(Merge(context, own), "aria-label")) ==>
              OptionLabel(Merge(context, own)) == Prop(Merge(context, own), "label")
  {
  }

  // ---------------------------------------------------------------------------
  // Focus
  // ---------------------------------------------------------------------------

  datatype FocusEvent = FocusEvent(defaultPrevented: bool)

  /** What a focus leaves behind: the event and the group's state object. */
  datatype FocusOutcome = FocusOutcome(event: FocusEvent, state: JsValue)

  /** `onFocus?.(event)`: skipped when nullish, a `TypeError` when not a
      function, and the handler's own error when it throws. */
  function CallFocusHandler(handler: JsValue, e: FocusEvent): (r: Result<FocusEvent, Error>)
    ensures r.Failure? <==> (!Nullish(handler) && !handler.Function?) || (handler.Function? && handler.throws)
    ensures r.Failure? ==> (r.error == Thrown <==> handler.Function?)
    ensures r.Success? && Nullish(handler) ==> r.value == e
    ensures r.Success? && handler.Function? ==> r.value.defaultPrevented == (e.defaultPrevented || handler.preventsDefault)
  {
    match handler
    case Undefined => Success(e)
    case Null => Success(e)
    case Function(_, prevents, throws) =>
      if throws then Failure(Thrown) else Success(FocusEvent(e.defaultPrevented || prevents))
    case _ => Failure(TypeError)
  }

  /** `state.setValue(value)`: only a radio state has it. */
  function SetValue(state: JsValue, value: JsValue): (r: Result<JsValue, Error>)
    ensures r.Failure? <==> !state.RadioState?
    ensures r.Success? ==> r.value == RadioState(state.id, value)
  {
    match state
    case RadioState(id, _) => Success(RadioState(id, value))
    case _ => Failure(TypeError)
  }

  /** The option's focus handler: the caller's `onFocus` runs first, and an
      error it throws propagates; if the event is then default-prevented the
      group state is left alone, and otherwise the group's value becomes this
      option's `value`. */
  function OnFocus(m: Props, e: FocusEvent): (r: Result<FocusOutcome, Error>)
    ensures r.Success? ==> CallFocusHandler(Prop(m, "onFocus"), e) == Success(r.value.event)
    ensures r.Success? && r.value.event.defaultPrevented ==> r.value.state == Prop(m, "state")
    ensures r.Success? && !r.value.event.defaultPrevented ==>
              Prop(m, "state").RadioState? && r.value.state == RadioState(Prop(m, "state").id, Prop(m, "value"))
    ensures r.Failure? <==>
              CallFocusHandler(Prop(m, "onFocus"), e).Failure? ||
              (!CallFocusHandler(Prop(m, "onFocus"), e).value.defaultPrevented && !Prop(m, "state").RadioState?)
    ensures CallFocusHandler(Prop(m, "onFocus"), e).Failure? ==> r == Failure(CallFocusHandler(Prop(m, "onFocus"), e).error)
  {
    var radio := RadioProps(m);
    assert Prop(radio, "onFocus") == Prop(m, "onFocus");
    match CallFocusHandler(Prop(radio, "onFocus"), e)
    case Failure(err) => Failure(err)
    case Success(after) =>
      if after.defaultPrevented then Success(FocusOutcome(after, Prop(m, "state")))
      else
        match SetValue(Prop(m, "state"), Prop(m, "value"))
        case Failure(err) => Failure(err)
        case Success(state) => Success(FocusOutcome(after, state))
  }

  /** A focus that is not default-prevented makes the focused option the
      active one when the group re-renders with the new state. */
  lemma FocusSelects(m: Props, e: FocusEvent)
    requires OnFocus(m, e).Success? && !OnFocus(m, e).value.event.defaultPrevented
    ensures RenderMerged(m["state" := OnFocus(m, e).value.state]).Success?
    ensures RenderMerged(m["state" := OnFocus(m, e).value.state]).value.dataActive
  {
  }

  /** A default-prevented focus leaves the rendered option exactly as it was. */
  lemma PreventedFocusChangesNothing(m: Props, e: FocusEvent)
    requires OnFocus(m, e).Success? && OnFocus(m, e).value.event.defaultPrevented
    ensures OnFocus(m, e).value.state == Prop(m, "state")
    ensures "state" in m ==> RenderMerged(m["state" := OnFocus(m, e).value.state]) == RenderMerged(m)
  {
    if "state" in m {
      assert m["state" := OnFocus(m, e).value.state] == m;
    }
  }

  /** A caller's `onFocus` that throws aborts the focus handler before
      `setValue`: the error propagates and no new group state is produced. */
  lemma ThrowingHandlerSkipsSetValue(m: Props, e: FocusEvent)
    requires Prop(m, "onFocus").Function? && Prop(m, "onFocus").throws
    ensures OnFocus(m, e) == Failure(Thrown)
  {
  }

  /** A focus event that is already default-prevented never changes the group. */
  lemma AlreadyPreventedKeepsState(m: Props)
    requires OnFocus(m, FocusEvent(true)).Success?
    ensures OnFocus(m, FocusEvent(true)).value.state == Prop(m, "state")
  {
  }

  // ---------------------------------------------------------------------------
  // Options of one group
  // ---------------------------------------------------------------------------

  /** How many of the given option values equal the group's current value. */
  function ActiveCount(current: JsValue, values: seq<JsValue>): nat {
    if values == [] then 0 else (if values[0] == current then 1 else 0) + ActiveCount(current, values[1..])
  }

  /** With pairwise distinct option values, exactly one option is active when
      the group's value is among them and none otherwise. */
  lemma {:induction false} OneActiveOption(current: JsValue, values: seq<JsValue>)
    requires forall i, j :: 0 <= i < j < |values| ==> values[i] != values[j]
    ensures ActiveCount(current, values) == if current in values then 1 else 0
  {
    if values != [] {
      OneActiveOption(current, values[1..]);
      if values[0] == current {
        assert current !in values[1..] by {
          forall j | 0 <= j < |values[1..]| ensures values[1..][j] != current {
            assert values[1..][j] == values[j + 1];
          }
        }
      } else {
        assert current in values <==> current in values[1..] by {
          if current in values {
            var i :| 0 <= i < |values| && values[i] == current;
            assert values[1..][i - 1] == current;
          }
        }
      }
    }
  }

  /** The options of a group, rendered with the group's context. */
  function ActiveRendered(context: Props, owns: seq<Props>): nat {
    if owns == [] then 0
    else
      var r := Render(context, owns[0]);
      (if r.Success? && r.value.dataActive then 1 else 0) + ActiveRendered(context, owns[1..])
  }

  /** The values of the options of a group. */
  function OptionValues(context: Props, owns: seq<Props>): (r: seq<JsValue>)
    ensures |r| == |owns|
    ensures forall i :: 0 <= i < |owns| ==> r[i] == Prop(Merge(context, owns[i]), "value")
  {
    if owns == [] then [] else [Prop(Merge(context, owns[0]), "value")] + OptionValues(context, owns[1..])
  }

  /** When the group's state comes from the context and no option overrides
      it, an option is rendered active exactly when its value is the group's. */
  lemma {:induction false} RenderedActiveCount(context: Props, owns: seq<Props>)
    requires Prop(context, "state").RadioState?
    requires forall i :: 0 <= i < |owns| ==> "state" !in owns[i]
    ensures ActiveRendered(context, owns) == ActiveCount(Prop(context, "state").current, OptionValues(context, owns))
  {
    if owns != [] {
      RenderedActiveCount(context, owns[1..]);
      assert OptionValues(context, owns)[1..] == OptionValues(context, owns[1..]);
      assert Prop(Merge(context, owns[0]), "state") == Prop(context, "state");
    }
  }

  /** In a group whose options have distinct values, exactly one option is
      rendered active when the group's value is one of them, and none otherwise. */
  lemma GroupHasOneActiveOption(context: Props, owns: seq<Props>)
    requires Prop(context, "state").RadioState?
    requires forall i :: 0 <= i < |owns| ==> "state" !in owns[i]
    requires forall i, j :: 0 <= i < j < |owns| ==>
               Prop(Merge(context, owns[i]), "value") != Prop(Merge(context, owns[j]), "value")
    ensures ActiveRendered(context, owns) ==
              if Prop(context, "state").current in OptionValues(context, owns) then 1 else 0
  {
    RenderedActiveCount(context, owns);
    OneActiveOption(Prop(context, "state").current, OptionValues(context, owns));
  }
}

=== FILE: wrappers.dfy ===
/** Small failure-carrying datatypes shared by the other modules. */
module Wrappers {

  /** A value that may be missing: an absent JavaScript property or an `undefined` return. */
  datatype Option<+T> = None | Some(value: T) {

    /** The wrapped value, or `default` when it is missing (JavaScript's destructuring default). */
    function GetOr(default: T): T {
      match this
      case Some(v) => v
      case None => default
    }
  }

  /** The outcome of an operation that can throw. */
  datatype Result<+T, +E> = Success(value: T) | Failure(error: E)
}
